=== FILE: README.md ===
# Stack calculator service — a verified Dafny model

The service keeps one integer stack per client id and lets clients call five
operations on it: `pushValue`, `pushOperation` (drain the stack, reduce it with
`min`, `max`, `lcm` or `gcd`, push the single result), `pop`, `isEmpty` and
`delayPop`. This project models the registry and those operations as pure
functions over `map<string, seq<Int32>>`. The head of each sequence is the top
of the stack. Every call returns the new registry together with its result or
the error it threw.

Files, one module each (sessions.dfy holds two):

- `java_int.dfy` (`JavaInt`): Java `int` values. It gives the 32-bit
  wrap-around of `*` and Java's `/` and `%`, which round toward zero.
- `divisibility.dfy` (`Divisibility`): divisibility over the integers, the
  terms in which gcd and lcm are specified.
- `outcomes.dfy` (`Outcomes`): the error kinds and the `Result` type.
- `reductions.dfy` (`Reductions`): the private helpers `min`, `max`,
  `gcd(int,int)` (as a function and as the source's loop), the gcd fold and the
  lcm fold.
- `calculator.dfy` (`Calculator`): the registry and the five operations.
- `sessions.dfy` (`Sessions`, `Scenarios`): sequences of calls from many
  clients, client isolation, last-in first-out order, and the call sequences
  of the service's tests and example client with what the model answers.

Behaviour taken from the code where its documentation says otherwise:

- `pushOperation` drains the stack before it looks at the operator. An unknown
  operator therefore throws and leaves the client's stack empty, not restored.
  The entry stays in the map.
- The interface documents `IllegalArgumentException` for a bad operator. The
  implementation throws `RemoteException`; the model has one `InvalidOperator`
  error.
- `gcd` and `lcm` are not order-independent in general. With operands of
  opposite sign, Java's `%` makes `gcd(4, -4) = -4` but `gcd(-4, 4) = 4`. The
  lcm fold inherits this sign: lcm of 4, -4 gives 4 but lcm of -4, 4 gives -4,
  with no overflow. It also wraps on overflow. Order independence is proved
  for the gcd fold on non-negative values and on values none of which is
  positive, and for the lcm fold on positive values whose product fits in an
  `int`.
- An lcm step divides by `gcd(0, 0) = 0` when the accumulator and the next
  drained value are both zero. Two zeros on the stack cause this. So does a
  single zero once the accumulator has wrapped around to 0: 65536, 65536, 0
  fails this way. The `ArithmeticException` comes after the drain, so the model
  returns `DivisionByZero` and leaves the stack empty. The lcm fails only when
  a zero was drained.
- Negative values do not break the lcm: lcm of -2 and 3 gives -6, a common
  multiple. Overflow does break it: 65536 and 65537 give 65536, which 65537
  does not divide.
- `delayPop` is `synchronized` and sleeps while holding the service's monitor,
  so it is one atomic step.
- The gcd fold is seeded with the top of the stack (`values.poll()`) and folds
  over the rest. A one-value stack gives that value back unchanged, even if it
  is negative.
- `Thread.sleep` throws `IllegalArgumentException` for a negative delay, and
  `delayPop` does not catch it. The model returns `NegativeDelay` and pops
  nothing.

## Model

| member | source | states |
|---|---|---|
| JavaInt.Wrap | CalculatorImplementation.java:168 | the `int` product is the unique 32-bit value congruent to the exact product modulo 2^32, and equals it when it fits |
| JavaInt.Quot | CalculatorImplementation.java:168 | Java `/` rounds toward zero: the magnitude is the floor of the magnitudes' quotient, and the sign is negative exactly when the operands' signs differ |
| JavaInt.Rem | CalculatorImplementation.java:190 | Java `%` is the remainder of the truncating quotient, `a == Quot(a,b)*b + r`; it is smaller than the divisor in magnitude and has the dividend's sign |
| Reductions.Min | CalculatorImplementation.java:147-149 | `min` of the drained values is one of them and is at most every one of them |
| Reductions.Max | CalculatorImplementation.java:157-159 | `max` of the drained values is one of them and is at least every one of them |
| Reductions.EuclidLoop | CalculatorImplementation.java:187-194 | the `while (b != 0)` loop terminates, because `b` shrinks in magnitude, and returns the same value as the recursive gcd that the lemmas below are about |
| Reductions.GcdWithZero | CalculatorImplementation.java:188-193 | `gcd(a, 0) = a` and `gcd(0, a) = a` |
| Reductions.GcdDividesBoth | CalculatorImplementation.java:187-194 | the pairwise gcd divides both operands, negative ones included |
| Reductions.GcdGreatest | CalculatorImplementation.java:187-194 | every common divisor of the operands divides the pairwise gcd |
| Reductions.Gcd | CalculatorImplementation.java:187-194 | the pairwise gcd is zero exactly when both operands are zero, and non-negative when both operands are |
| Reductions.GcdBezout | CalculatorImplementation.java:187-194 | the pairwise gcd is an integer combination `x*a + y*b` of the operands |
| Reductions.GcdOrderMattersForNegatives | CalculatorImplementation.java:187-194 | the pairwise gcd is not symmetric: `gcd(4,-4) = -4` while `gcd(-4,4) = 4` |
| Reductions.GcdFoldSingleton | CalculatorImplementation.java:178 | the gcd fold of a one-value stack is that value |
| Reductions.GcdFold | CalculatorImplementation.java:176-179 | the gcd fold divides every drained value |
| Reductions.GcdFoldGreatest | CalculatorImplementation.java:176-179 | every common divisor of the drained values divides the gcd fold |
| Reductions.GcdFoldOrderIndependent | CalculatorImplementation.java:176-179 | on non-negative values, two stacks holding the same values (as multisets) in any order give the same gcd fold |
| Reductions.GcdFoldOrderIndependentNonPositive | CalculatorImplementation.java:176-179 | on values none of which is positive, two stacks holding the same values (as multisets) in any order give the same gcd fold, which is not positive |
| Reductions.LcmStep | CalculatorImplementation.java:168 | one step `(a*b)/gcd(a,b)` fails, with a division by zero, exactly when both operands are zero |
| Reductions.LcmFold | CalculatorImplementation.java:166-169 | the only way the lcm fold fails is a division by zero, and it fails only when a zero was drained |
| Reductions.LcmFoldMultiple | CalculatorImplementation.java:166-169 | for positive values whose product fits in an `int`, the lcm fold succeeds with a positive multiple of every drained value |
| Reductions.LcmStepLeast | CalculatorImplementation.java:168 | for positive operands whose product fits, one step divides every common multiple of the operands |
| Reductions.LcmFoldLeast | CalculatorImplementation.java:166-169 | under the same conditions the lcm fold divides every common multiple of the drained values, so it is their least common multiple |
| Reductions.ProductPermutation | CalculatorImplementation.java:166-169 | the product that bounds the lcm fold is the same for any order of the drained values |
| Reductions.LcmFoldOrderIndependent | CalculatorImplementation.java:166-169 | on positive values whose product fits, two stacks holding the same values (as multisets) in any order give the same lcm fold |
| Reductions.LcmFoldOneZeroAfterWrap | CalculatorImplementation.java:168 | lcm of 65536, 65536, 0 divides by zero: the accumulator wraps to 0 and meets the zero |
| Reductions.LcmFoldOverflow | CalculatorImplementation.java:168 | lcm of 65536 and 65537 wraps to 65536, which 65537 does not divide |
| Reductions.LcmOrderMattersForNegatives | CalculatorImplementation.java:166-169 | the lcm fold depends on order with mixed signs and no overflow: 4, -4 gives 4 while -4, 4 gives -4 |
| Reductions.LcmFoldNegative | CalculatorImplementation.java:166-169 | lcm of -2 and 3 is -6, a common multiple of both |
| Reductions.LcmFoldTwoZerosFails | CalculatorImplementation.java:168 | two zeros anywhere on the stack make the lcm fold divide by zero |
| Calculator.IsEmpty | CalculatorImplementation.java:112-115 | `isEmpty` holds exactly when the client has no stack or an empty one, that is when its stack read as a sequence is empty |
| Calculator.PushValue | CalculatorImplementation.java:37-41 | creates the client's entry when absent and puts the value on top of the previous stack; no other entry changes |
| Calculator.Pop | CalculatorImplementation.java:94-102 | fails on an absent or empty stack and leaves the whole registry unchanged. Otherwise the old stack is the returned value on top of the new one, and no other entry changes |
| Calculator.DelayPop | CalculatorImplementation.java:127-137 | a negative delay or an interrupted wait fails without popping; otherwise the result and registry are exactly those of `pop` |
| Calculator.Reduce | CalculatorImplementation.java:64-80 | the switch rejects exactly the operators other than min, max, lcm and gcd. min and max give a least or greatest drained value. gcd gives the gcd fold, a common divisor that every common divisor divides. lcm gives the lcm fold, which fails only when a zero was drained |
| Calculator.PushOperation | CalculatorImplementation.java:52-84 | an absent or empty stack fails and changes nothing. Otherwise the client ends with exactly `[reduce(op, old stack)]` on success or an empty stack on failure. It fails exactly for an unknown operator or a failing lcm, with the error the reduction reports (`InvalidOperator` or `DivisionByZero`), and no other entry changes |
| Calculator.PushThenPop | CalculatorImplementation.java:94-102 | pop after pushValue returns the pushed value and restores the client's previous stack (the registry itself when the client existed) |
| Calculator.PopThenPush | CalculatorImplementation.java:37-41 | pushing back what pop returned restores the registry exactly |
| Calculator.IsEmptyIffPopFails | CalculatorImplementation.java:112-115 | `isEmpty` holds exactly when `pop`, or an uninterrupted `delayPop`, fails with an empty-stack error |
| Calculator.PushValueMakesNonEmpty | CalculatorImplementation.java:37-41 | after a push the client's stack is non-empty and one value taller |
| Calculator.PushOperationMin | CalculatorImplementation.java:59-68 | `min` on a non-empty stack succeeds and leaves exactly one value, the least of the drained values |
| Calculator.PushOperationMax | CalculatorImplementation.java:59-71 | `max` on a non-empty stack succeeds and leaves exactly one value, the greatest of the drained values |
| Calculator.PushOperationGcd | CalculatorImplementation.java:75-77 | `gcd` on a non-empty stack succeeds and leaves one value that divides every drained value and that every common divisor divides |
| Calculator.PushOperationLcm | CalculatorImplementation.java:72-74 | `lcm` on positive values whose product fits in an `int` succeeds and leaves one positive common multiple that divides every other common multiple |
| Calculator.PushOperationLcmTwoZeros | CalculatorImplementation.java:59-74 | `lcm` over a stack holding two zeros throws a division by zero after the drain and leaves the stack empty |
| Calculator.PushOperationInvalid | CalculatorImplementation.java:59-80 | an unknown operator on a non-empty stack throws after the drain. The values are lost, and the client's entry stays, now empty |
| Sessions.Step | CalculatorImplementation.java:17 | a call never removes a client and changes no entry but its own client's |
| Sessions.StepLocal | CalculatorImplementation.java:17 | a call's response and its effect on its client depend only on that client's entry |
| Sessions.Run | CalculatorImplementation.java:36-137 | a run of synchronized calls gives one response per call and never removes a client |
| Sessions.ClientsIsolated | CalculatorImplementation.java:17 | in any interleaving of calls from many clients, a client gets exactly the responses and final stack it would get if only its own calls were made |
| Sessions.RunPushes | CalculatorTest.java:163-165 | a client's successive pushes stack its values in reverse order, last pushed on top |
| Sessions.RunPops | CalculatorTest.java:168-173 | `n` pops return the top `n` values, top first, and leave the rest |
| Sessions.PushesThenPopsReverse | CalculatorTest.java:162-173 | pushing values and popping as many times returns them in reverse order and restores the client's previous stack |
| Scenarios.PopsReturnReverseOrder | CalculatorTest.java:162-173 | pushing 1..5 then popping five times yields 5, 4, 3, 2, 1 |
| Scenarios.MinThenMax | CalculatorTest.java:108-126 | pushing 1..5 then `min` gives 1; pushing 10 then `max` gives 10 |
| Scenarios.MaxOfTwo | CalculatorClient.java:9-12 | pushing 10 and 20 then `max` gives 20 |
| Scenarios.GcdOfTwo | CalculatorClient.java:30-33 | pushing 5 and 15 then `gcd` gives 5 |
| Scenarios.LcmOfTwo | CalculatorClient.java:35-38 | pushing 14 and 21 then `lcm` gives 42 |
| Scenarios.DelayedPopOfFive | CalculatorTest.java:209-219 | after pushing 1..5 an uninterrupted `delayPop` returns 5; an interrupted one fails and pops nothing |

## Left out

- The RMI plumbing is not modelled. This covers `UnicastRemoteObject`, `RemoteException` as a transport, and registry binding in CalculatorServer.java. These are I/O and library calls.
- Concurrency is not modelled directly. Every operation is `synchronized` on the one service object, so concurrent calls are modelled as a sequence of calls applied one at a time (`Sessions.Run`).
- The wall-clock wait of `delayPop` is not modelled. Its outcome is two inputs: the delay's sign, and whether the wait was interrupted. Re-setting the thread's interrupt flag is thread state and is left out.
- The `System.out.println` logging is not modelled; it is output only.
- Null client ids and null operators are not modelled. Java strings may be null, and a null operator makes the `switch` throw `NullPointerException`, but the model's strings cannot be null.
- CalculatorClient.java is used only for its example values. It calls one-argument methods that the interface does not declare.
- CalculatorTest.java is used only for its expected values; its thread pools, latches and RMI lookup are not modelled. Its `testPushValue` expects pops in push order, which contradicts the stack's last-in first-out `pop`, so that expectation is not encoded.
- Reductions.LcmFoldMultiple: assumes positive values whose product fits in an `int`. Zeros make the fold zero or throw, and a negative value can make the result negative (-2, 3 gives -6, `Reductions.LcmFoldNegative`), so the positivity clause is stated for positive values only. Only overflow makes the result stop being a common multiple (`Reductions.LcmFoldOverflow`). The product bound is stronger than needed. It excludes some stacks the fold handles without overflow, such as forty copies of 2.
- Reductions.LcmFoldLeast: carries the same assumptions as `Reductions.LcmFoldMultiple`.
- Reductions.LcmFoldOrderIndependent: carries the same assumptions. Order independence is not claimed for stacks whose intermediate products overflow, nor for stacks that mix signs: 4, -4 gives 4 but -4, 4 gives -4 (`Reductions.LcmOrderMattersForNegatives`).
- Reductions.GcdFoldOrderIndependent: is proved for non-negative values, and `Reductions.GcdFoldOrderIndependentNonPositive` covers stacks with no positive value. Order independence can fail when operands of opposite sign meet (`Reductions.GcdOrderMattersForNegatives`), though not on every such stack.
- Calculator.PushOperationLcm: carries the same positivity and no-overflow assumptions as `Reductions.LcmFoldMultiple`.

=== FILE: calculator.dfy ===
/**
 The calculator service: a registry mapping each client id to its own stack
 of Java `int`s, and the five operations a client may call on it.

 Each operation is a pure function from the registry before the call to the
 registry after it, paired with what the call returned or the error it threw.
 A stack is a sequence whose first element is the top (the source pushes and
 pops at the front of a linked list).
 */
module Calculator {

  import opened JavaInt
  import opened Divisibility
  import opened Outcomes
  import opened Reductions

  /** Client id to that client's stack, top first. A client's entry is created
      by its first push and never removed, though it may become empty. */
  type Registry = map<string, seq<Int32>>

  /** The registry after a call, together with what the call returned or threw. */
  datatype Reply<+T> = Reply(result: Result<T>, registry: Registry)

  /** The stack of `client`; a client that never pushed has none, read as empty. */
  function StackOf(reg: Registry, client: string): seq<Int32>
  {
    if client in reg then reg[client] else []
  }

  /** `isEmpty`: no stack yet, or a stack with no values. Reads only. */
  predicate IsEmpty(reg: Registry, client: string)
    ensures IsEmpty(reg, client) <==> StackOf(reg, client) == []
  {
    client !in reg || |reg[client]| == 0
  }

  /** `pushValue`: creates the client's stack when absent, then pushes on top. */
  function PushValue(reg: Registry, client: string, value: Int32): (r: Registry)
    ensures r.Keys == reg.Keys + {client}
    ensures !IsEmpty(r, client) && r[client][0] == value
    ensures r[client][1..] == StackOf(reg, client)
    ensures forall d :: d in reg && d != client ==> r[d] == reg[d]
  {
    reg[client := [value] + StackOf(reg, client)]
  }

  /** `pop`: removes and returns the top value, or fails on an absent or empty
      stack without touching the registry. */
  function Pop(reg: Registry, client: string): (r: Reply<Int32>)
    ensures IsEmpty(reg, client) ==> r == Reply(Err(EmptyStack(client)), reg)
    ensures !IsEmpty(reg, client) ==>
      && r.result.Ok?
      && r.registry.Keys == reg.Keys
      && reg[client] == [r.result.value] + r.registry[client]
      && forall d :: d in reg && d != client ==> r.registry[d] == reg[d]
  {
    if IsEmpty(reg, client) then Reply(Err(EmptyStack(client)), reg)
    else Reply(Ok(reg[client][0]), reg[client := reg[client][1..]])
  }

  /** `delayPop`: the delay is not modelled; what remains is how the sleep can end.
      A negative delay makes the sleep throw before waiting, an interrupted wait
      fails the call; in both cases nothing is popped. Otherwise it is `pop`. */
  function DelayPop(reg: Registry, client: string, millis: Int32, interrupted: bool): (r: Reply<Int32>)
    ensures millis < 0 ==> r == Reply(Err(NegativeDelay), reg)
    ensures millis >= 0 && interrupted ==> r == Reply(Err(Interrupted), reg)
    ensures millis >= 0 && !interrupted ==> r == Pop(reg, client)
  {
    if millis < 0 then Reply(Err(NegativeDelay), reg)
    else if interrupted then Reply(Err(Interrupted), reg)
    else Pop(reg, client)
  }

  /** The operator names the switch of `pushOperation` accepts. */
  const Operators: set<string> := {"min", "max", "lcm", "gcd"}

  /** The operator switch applied to the drained values (top of stack first). */
  function Reduce(op: string, values: seq<Int32>): (r: Result<Int32>)
    requires |values| > 0
    ensures op !in Operators <==> r == Err(InvalidOperator(op))
    ensures op == "min" ==> r.Ok? && r.value in values && forall x :: x in values ==> r.value <= x
    ensures op == "max" ==> r.Ok? && r.value in values && forall x :: x in values ==> x <= r.value
    ensures op == "gcd" ==> r == Ok(GcdFold(values)) && forall x :: x in values ==> Divides(r.value, x)
    ensures op == "gcd" ==> forall d :: (forall x :: x in values ==> Divides(d, x)) ==> Divides(d, r.value)
    ensures op == "lcm" ==> r == LcmFold(values) && (r.Err? ==> 0 in values)
  {
    if op == "min" then Ok(Min(values))
    else if op == "max" then Ok(Max(values))
    else if op == "lcm" then LcmFold(values)
    else if op == "gcd" then
      assert forall d :: (forall x :: x in values ==> Divides(d, x)) ==> Divides(d, GcdFold(values)) by {
        forall d | forall x :: x in values ==> Divides(d, x)
          ensures Divides(d, GcdFold(values))
        {
          GcdFoldGreatest(d, values);
        }
      }
      Ok(GcdFold(values))
    else Err(InvalidOperator(op))
  }

  /** `pushOperation`: fails on an absent or empty stack without touching the
      registry; otherwise drains the whole stack BEFORE looking at the operator,
      and pushes the single result back only when the reduction succeeds. An
      unknown operator, or an lcm that divides by zero, leaves the stack empty. */
  function PushOperation(reg: Registry, client: string, op: string): (r: Reply<()>)
    ensures IsEmpty(reg, client) ==> r == Reply(Err(EmptyStack(client)), reg)
    ensures r.registry.Keys == reg.Keys
    ensures forall d :: d in reg && d != client ==> r.registry[d] == reg[d]
    ensures !IsEmpty(reg, client) && r.result.Ok? ==>
      Reduce(op, reg[client]).Ok? && r.registry[client] == [Reduce(op, reg[client]).value]
    ensures !IsEmpty(reg, client) && r.result.Err? ==> r.registry[client] == []
    ensures !IsEmpty(reg, client) && r.result.Err? ==>
      Reduce(op, reg[client]).Err? && r.result.error == Reduce(op, reg[client]).error
    ensures !IsEmpty(reg, client) ==>
      (r.result.Err? <==> op !in Operators || (op == "lcm" && LcmFold(reg[client]).Err?))
  {
    if IsEmpty(reg, client) then Reply(Err(EmptyStack(client)), reg)
    else
      var values := reg[client];
      var drained := reg[client := []];
      match Reduce(op, values)
      case Err(e) => Reply(Err(e), drained)
      case Ok(v) => Reply(Ok(()), drained[client := [v]])
  }

  // ---------------------------------------------------------------------------
  // properties of the operations
  // ---------------------------------------------------------------------------

  /** Pushing then popping returns the pushed value and restores the client's
      previous stack; no other client's entry changes. */
  lemma PushThenPop(reg: Registry, client: string, value: Int32)
    ensures Pop(PushValue(reg, client, value), client)
         == Reply(Ok(value), reg[client := StackOf(reg, client)])
    ensures client in reg ==> Pop(PushValue(reg, client, value), client).registry == reg
  {
    var pushed := PushValue(reg, client, value);
    assert pushed[client][1..] == StackOf(reg, client);
    if client in reg {
      assert reg[client := reg[client]] == reg;
    }
  }

  /** Popping then pushing the popped value back gives the registry unchanged. */
  lemma PopThenPush(reg: Registry, client: string)
    requires !IsEmpty(reg, client)
    ensures PushValue(Pop(reg, client).registry, client, Pop(reg, client).result.value) == reg
  {
    var r := Pop(reg, client);
    assert [r.result.value] + r.registry[client] == reg[client];
  }

  /** `isEmpty` answers exactly whether `pop` (or an undisturbed `delayPop`)
      would fail with an empty-stack error. */
  lemma IsEmptyIffPopFails(reg: Registry, client: string, millis: Int32)
    requires millis >= 0
    ensures IsEmpty(reg, client) <==> Pop(reg, client).result == Err(EmptyStack(client))
    ensures IsEmpty(reg, client) <==> DelayPop(reg, client, millis, false).result.Err?
  {
  }

  lemma PushValueMakesNonEmpty(reg: Registry, client: string, value: Int32)
    ensures !IsEmpty(PushValue(reg, client, value), client)
    ensures |StackOf(PushValue(reg, client, value), client)| == |StackOf(reg, client)| + 1
  {
  }

  /** `min` on a non-empty stack leaves exactly one value: the least of those drained. */
  lemma PushOperationMin(reg: Registry, client: string)
    requires !IsEmpty(reg, client)
    ensures var r := PushOperation(reg, client, "min");
      && r.result.Ok?
      && |r.registry[client]| == 1
      && r.registry[client][0] in reg[client]
      && forall x :: x in reg[client] ==> r.registry[client][0] <= x
  {
  }

  /** `max` on a non-empty stack leaves exactly one value: the greatest of those drained. */
  lemma PushOperationMax(reg: Registry, client: string)
    requires !IsEmpty(reg, client)
    ensures var r := PushOperation(reg, client, "max");
      && r.result.Ok?
      && |r.registry[client]| == 1
      && r.registry[client][0] in reg[client]
      && forall x :: x in reg[client] ==> x <= r.registry[client][0]
  {
  }

  /** `gcd` on a non-empty stack leaves one value that divides every drained
      value and is divisible by every common divisor of them. */
  lemma PushOperationGcd(reg: Registry, client: string, d: int)
    requires !IsEmpty(reg, client)
    ensures var r := PushOperation(reg, client, "gcd");
      && r.result.Ok?
      && |r.registry[client]| == 1
      && (forall x :: x in reg[client] ==> Divides(r.registry[client][0], x))
      && ((forall x :: x in reg[client] ==> Divides(d, x)) ==> Divides(d, r.registry[client][0]))
  {
    if forall x :: x in reg[client] ==> Divides(d, x) {
      GcdFoldGreatest(d, reg[client]);
    }
  }

  /** `lcm` on a stack of positive values whose product fits in an `int` leaves
      one positive common multiple of every drained value, which divides every
      other common multiple `m`: their least common multiple. */
  lemma PushOperationLcm(reg: Registry, client: string, m: int)
    requires !IsEmpty(reg, client)
    requires forall x :: x in reg[client] ==> x > 0
    requires Product(reg[client]) <= MaxInt
    ensures var r := PushOperation(reg, client, "lcm");
      && r.result.Ok?
      && |r.registry[client]| == 1
      && r.registry[client][0] > 0
      && (forall x :: x in reg[client] ==> Divides(x, r.registry[client][0]))
      && ((forall x :: x in reg[client] ==> Divides(x, m)) ==> Divides(r.registry[client][0], m))
  {
    LcmFoldMultiple(reg[client]);
    if forall x :: x in reg[client] ==> Divides(x, m) {
      LcmFoldLeast(reg[client], m);
    }
  }

  /** `lcm` over a stack holding two zeros throws after the drain: the stack is
      left empty. */
  lemma PushOperationLcmTwoZeros(reg: Registry, client: string, i: int, j: int)
    requires client in reg
    requires 0 <= i < j < |reg[client]| && reg[client][i] == 0 && reg[client][j] == 0
    ensures PushOperation(reg, client, "lcm") == Reply(Err(DivisionByZero), reg[client := []])
  {
    LcmFoldTwoZerosFails(reg[client], i, j);
  }

  /** An unknown operator on a non-empty stack throws after the drain: the
      values are lost, the client's entry stays and is now empty. */
  lemma PushOperationInvalid(reg: Registry, client: string, op: string)
    requires !IsEmpty(reg, client) && op !in Operators
    ensures var r := PushOperation(reg, client, op);
      && r.result == Err(InvalidOperator(op))
      && r.registry == reg[client := []]
      && client in r.registry
      && IsEmpty(r.registry, client)
  {
  }
}

=== FILE: divisibility.dfy ===
/**
 Divisibility over the integers, the vocabulary in which the gcd and lcm
 reductions of the calculator are specified. `Divides(d, x)` holds when
 `x == k * d` for some integer `k`; zero divides only zero.
 */
module Divisibility {

  import opened JavaInt

  ghost predicate Divides(d: int, x: int)
  {
    exists k :: x == k * d
  }

  /** A witness `k` with `x == k * d`. */
  ghost function Cofactor(d: int, x: int): (k: int)
    requires Divides(d, x)
    ensures x == k * d
  {
    var k :| x == k * d; k
  }

  lemma MulAssociative(a: int, b: int, c: int)
    ensures (a * b) * c == a * (b * c)
  {
  }

  /** Multiplying by a non-negative factor preserves order. */
  lemma {:induction false} MulMonotone(a: int, b: int, c: int)
    requires a <= b && c >= 0
    ensures a * c <= b * c
    decreases c
  {
    if c > 0 {
      MulMonotone(a, b, c - 1);
      assert a * c == a * (c - 1) + a;
      assert b * c == b * (c - 1) + b;
    }
  }

  /** A non-zero multiple of `d` is at least as large as `d` in magnitude. */
  lemma MultipleMagnitude(t: int, d: int)
    requires t != 0 && d != 0
    ensures Abs(t * d) >= Abs(d)
  {
    if t > 0 && d > 0 {
      MulMonotone(1, t, d);
    } else if t > 0 {
      MulMonotone(1, t, -d);
      assert t * (-d) == -(t * d);
    } else if d > 0 {
      MulMonotone(1, -t, d);
      assert (-t) * d == -(t * d);
    } else {
      MulMonotone(1, -t, -d);
      assert (-t) * (-d) == t * d;
    }
  }

  lemma MulAdd(p: int, u: int, v: int)
    ensures p * (u + v) == p * u + p * v
  {
  }

  lemma MulSubtract(p: int, u: int, v: int)
    ensures p * (u - v) == p * u - p * v
    ensures (u - v) * p == u * p - v * p
  {
  }

  /** A non-zero factor cancels from both sides of an equation. */
  lemma CancelFactor(p: int, q: int, g: int)
    requires g != 0 && p * g == q * g
    ensures p == q
  {
    assert (p - q) * g == 0;
    if p != q {
      MultipleMagnitude(p - q, g);
    }
  }

  /** Any explicit multiple is divisible. */
  lemma MultipleIsDivisible(d: int, x: int, k: int)
    requires x == k * d
    ensures Divides(d, x)
  {
  }

  lemma DividesZero(d: int)
    ensures Divides(d, 0)
  {
    MultipleIsDivisible(d, 0, 0);
  }

  lemma DividesSelf(d: int)
    ensures Divides(d, d)
  {
    MultipleIsDivisible(d, d, 1);
  }

  lemma {:induction false} DividesTransitive(a: int, b: int, c: int)
    requires Divides(a, b) && Divides(b, c)
    ensures Divides(a, c)
  {
    var kb, kc := Cofactor(a, b), Cofactor(b, c);
    assert c == (kc * kb) * a by {
      assert c == kc * (kb * a);
    }
    MultipleIsDivisible(a, c, kc * kb);
  }

  /** A common divisor of `x` and `y` divides every integer combination of them. */
  lemma {:induction false} DividesCombination(d: int, x: int, y: int, p: int, q: int)
    requires Divides(d, x) && Divides(d, y)
    ensures Divides(d, p * x + q * y)
  {
    var kx, ky := Cofactor(d, x), Cofactor(d, y);
    assert p * x + q * y == (p * kx + q * ky) * d by {
      assert p * x == (p * kx) * d;
      assert q * y == (q * ky) * d;
    }
    MultipleIsDivisible(d, p * x + q * y, p * kx + q * ky);
  }

  /** A positive divisor of a positive number is not larger than it. */
  lemma DivisorIsSmaller(d: int, x: int)
    requires d > 0 && x > 0 && Divides(d, x)
    ensures d <= x
  {
    var k := Cofactor(d, x);
    assert k >= 1;
    assert k * d >= 1 * d;
  }

  /** Negating both the divisor and the multiple keeps divisibility. */
  lemma DividesNegate(d: int, x: int)
    requires Divides(d, x)
    ensures Divides(-d, -x)
  {
    var k := Cofactor(d, x);
    assert -x == k * (-d);
    MultipleIsDivisible(-d, -x, k);
  }

  /** Divisibility is antisymmetric on the non-negative integers. */
  lemma {:induction false} DividesAntisymmetric(a: int, b: int)
    requires a >= 0 && b >= 0
    requires Divides(a, b) && Divides(b, a)
    ensures a == b
  {
    if a != 0 && b != 0 {
      DivisorIsSmaller(a, b);
      DivisorIsSmaller(b, a);
    }
  }
}

=== FILE: java_int.dfy ===
/**
 Java's 32-bit `int` arithmetic, written out over Dafny's unbounded integers.

 Java multiplies modulo 2^32 (two's complement wrap-around) and its `/` and `%`
 truncate toward zero, whereas Dafny's `/` and `%` are Euclidean. The calculator
 relies on all three: `a * b` and `/` in the lcm fold and `%` in Euclid's loop.
 */
module JavaInt {

  const MinInt: int := -0x8000_0000
  const MaxInt: int := 0x7fff_ffff
  const Modulus: int := 0x1_0000_0000

  /** Values of Java's primitive `int`. */
  type Int32 = x: int | MinInt <= x <= MaxInt

  function Abs(x: int): nat
  {
    if x < 0 then -x else x
  }

  /** Narrowing of an exact result to 32 bits, as Java's `int` multiplication and
      division do: the unique representable value congruent to `x` modulo 2^32. */
  function Wrap(x: int): (r: Int32)
    ensures (x - r) % Modulus == 0
    ensures MinInt <= x <= MaxInt ==> r == x
  {
    (x - MinInt) % Modulus + MinInt
  }

  /** Dafny's division of naturals, stated once for the two functions below. */
  lemma DivModNat(n: nat, m: nat)
    requires m > 0
    ensures n == (n / m) * m + n % m
    ensures 0 <= n % m < m && n / m >= 0
    ensures (n / m) * m <= n < (n / m + 1) * m
  {
    var q, r := n / m, n % m;
    assert n == q * m + r;
    assert (q + 1) * m == q * m + m;
  }

  /** Java's integer `/`: the quotient rounded toward zero. */
  function Quot(a: int, b: int): (q: int)
    requires b != 0
    ensures Abs(q) * Abs(b) <= Abs(a) < (Abs(q) + 1) * Abs(b)
    ensures q == 0 || ((q < 0) <==> ((a < 0) != (b < 0)))
  {
    var n, m := Abs(a), Abs(b);
    DivModNat(n, m);
    var k := n / m;
    if (a < 0) == (b < 0) then k else -k
  }

  /** Java's integer `%`: the remainder of `Quot`, carrying the sign of the dividend. */
  function Rem(a: int, b: int): (r: int)
    requires b != 0
    ensures a == Quot(a, b) * b + r
    ensures Abs(r) < Abs(b)
    ensures r == 0 || ((r < 0) <==> (a < 0))
  {
    var n, m := Abs(a), Abs(b);
    DivModNat(n, m);
    var k, s := n / m, n % m;
    QuotTimesDivisor(a, b);
    if a < 0 then -s else s
  }

  /** `Quot(a, b) * b` is the multiple of `b` nearest zero-ward to `a`, with the
      sign of `a`. */
  lemma QuotTimesDivisor(a: int, b: int)
    requires b != 0
    ensures var k := Abs(a) / Abs(b);
      Quot(a, b) * b == if a < 0 then -(k * Abs(b)) else k * Abs(b)
  {
    var k: int, m: int := Abs(a) / Abs(b), Abs(b);
    var q := Quot(a, b);
    assert q == if (a < 0) == (b < 0) then k else -k;
    if b > 0 {
      assert m == b;
      if a < 0 {
        NegatedProduct(k, b);
      }
    } else {
      assert b == -m;
      NegatedProduct(k, m);
      NegatedProduct(-k, m);
    }
  }

  lemma NegatedProduct(x: int, y: int)
    ensures (-x) * y == -(x * y) && x * (-y) == -(x * y)
  {
  }

  /** For non-negative operands Java's `/` and `%` coincide with Dafny's. */
  lemma QuotRemNonNegative(a: int, b: int)
    requires a >= 0 && b > 0
    ensures Quot(a, b) == a / b
    ensures Rem(a, b) == a % b
  {
  }
}

=== FILE: outcomes.dfy ===
/**
 The ways a calculator call can fail, and the value-or-failure result every
 operation returns in place of throwing.
 */
module Outcomes {

  /** One constructor per exception the calculator lets escape. */
  datatype Error =
    | EmptyStack(client: string)       // RemoteException: stack empty or never created
    | InvalidOperator(op: string)      // RemoteException: operator is not min, max, lcm or gcd
    | Interrupted                      // RemoteException wrapping the InterruptedException of the delay
    | NegativeDelay                    // IllegalArgumentException of a negative delay
    | DivisionByZero                   // ArithmeticException of the lcm fold, when gcd(0, 0) = 0

  datatype Result<+T> = Ok(value: T) | Err(error: Error)
}

=== FILE: reductions.dfy ===
/**
 The four reductions `pushOperation` applies to a drained stack — min, max,
 gcd and lcm — and Euclid's algorithm on two `int`s that the last two use.
 Every operand and result is a Java `int`; the lcm fold multiplies and
 divides with Java's 32-bit semantics.
 */
module Reductions {

  import opened JavaInt
  import opened Divisibility
  import opened Outcomes

  // ---------------------------------------------------------------------------
  // min and max
  // ---------------------------------------------------------------------------

  /** The smallest of the drained values. */
  function Min(s: seq<Int32>): (m: Int32)
    requires |s| > 0
    ensures m in s
    ensures forall x :: x in s ==> m <= x
  {
    if |s| == 1 then s[0]
    else
      var rest := Min(s[1..]);
      assert s == [s[0]] + s[1..];
      if s[0] <= rest then s[0] else rest
  }

  /** The largest of the drained values. */
  function Max(s: seq<Int32>): (m: Int32)
    requires |s| > 0
    ensures m in s
    ensures forall x :: x in s ==> x <= m
  {
    if |s| == 1 then s[0]
    else
      var rest := Max(s[1..]);
      assert s == [s[0]] + s[1..];
      if s[0] >= rest then s[0] else rest
  }

  // ---------------------------------------------------------------------------
  // Euclid's algorithm on two ints
  // ---------------------------------------------------------------------------

  /** Euclid's algorithm with Java's truncating `%`. Each step replaces `b` by a
      remainder of smaller magnitude, which is what makes the loop terminate.
      The result may be negative when an operand is; it is zero only for
      gcd(0, 0), the divisor that makes the lcm fold throw. */
  function Gcd(a: Int32, b: Int32): (g: Int32)
    ensures g == 0 <==> a == 0 && b == 0
    ensures a >= 0 && b >= 0 ==> g >= 0
    decreases Abs(b)
  {
    if b == 0 then a else Gcd(b, Rem(a, b))
  }

  /** Euclid's loop as the service runs it, step for step: it terminates and
      agrees with the recursive definition, so `GcdDividesBoth` and
      `GcdGreatest` apply to what it returns. */
  method EuclidLoop(a: Int32, b: Int32) returns (g: Int32)
    ensures g == Gcd(a, b)
  {
    var x: Int32, y: Int32 := a, b;
    while y != 0
      invariant Gcd(x, y) == Gcd(a, b)
      decreases Abs(y)
    {
      var temp := y;
      y := Rem(x, y);
      x := temp;
    }
    g := x;
  }

  lemma GcdWithZero(a: Int32)
    ensures Gcd(a, 0) == a
    ensures Gcd(0, a) == a
  {
  }

  /** The result divides both operands. */
  lemma {:induction false} GcdDividesBoth(a: Int32, b: Int32)
    ensures Divides(Gcd(a, b), a) && Divides(Gcd(a, b), b)
    decreases Abs(b)
  {
    var g := Gcd(a, b);
    if b == 0 {
      DividesSelf(a);
      DividesZero(a);
    } else {
      var r := Rem(a, b);
      GcdDividesBoth(b, r);
      assert a == Quot(a, b) * b + 1 * r;
      DividesCombination(g, b, r, Quot(a, b), 1);
    }
  }

  /** Every common divisor of the operands divides the result. */
  lemma {:induction false} GcdGreatest(d: int, a: Int32, b: Int32)
    requires Divides(d, a) && Divides(d, b)
    ensures Divides(d, Gcd(a, b))
    decreases Abs(b)
  {
    if b != 0 {
      var r := Rem(a, b);
      assert r == 1 * a + (-Quot(a, b)) * b;
      DividesCombination(d, a, b, 1, -Quot(a, b));
      GcdGreatest(d, b, r);
    }
  }

  /** Bezout's identity: the result is an integer combination of the operands,
      which is what makes the lcm step divide every common multiple. */
  lemma {:induction false} GcdBezout(a: Int32, b: Int32) returns (x: int, y: int)
    ensures Gcd(a, b) == x * a + y * b
    decreases Abs(b)
  {
    if b == 0 {
      x, y := 1, 0;
    } else {
      var q, r := Quot(a, b), Rem(a, b);
      var x1, y1 := GcdBezout(b, r);
      x, y := y1, x1 - y1 * q;
      assert y1 * r == y1 * a - (y1 * q) * b by {
        assert r == a - q * b;
        MulSubtract(y1, a, q * b);
        MulAssociative(y1, q, b);
      }
      assert (x1 - y1 * q) * b == x1 * b - (y1 * q) * b by {
        MulSubtract(b, x1, y1 * q);
      }
    }
  }

  /** With operands of opposite sign the result depends on their order. */
  lemma GcdOrderMattersForNegatives()
    ensures Gcd(4, -4) == -4
    ensures Gcd(-4, 4) == 4
  {
  }

  // ---------------------------------------------------------------------------
  // the gcd fold: seeded with the top value, folded over the rest
  // ---------------------------------------------------------------------------

  function GcdFrom(acc: Int32, s: seq<Int32>): Int32
    decreases |s|
  {
    if s == [] then acc else GcdFrom(Gcd(acc, s[0]), s[1..])
  }

  /** The gcd fold of `pushOperation`: seeded with the first drained value (the
      former top of stack), then one `Gcd` per remaining value, in drain order.
      Its result divides every drained value. */
  function GcdFold(values: seq<Int32>): (g: Int32)
    requires |values| > 0
    ensures forall x :: x in values ==> Divides(g, x)
  {
    GcdFromDividesAll(values[0], values[1..]);
    assert values == [values[0]] + values[1..];
    GcdFrom(values[0], values[1..])
  }

  lemma GcdFoldSingleton(x: Int32)
    ensures GcdFold([x]) == x
  {
  }

  lemma {:induction false} GcdFromDividesAll(acc: Int32, s: seq<Int32>)
    decreases |s|
    ensures Divides(GcdFrom(acc, s), acc)
    ensures forall x :: x in s ==> Divides(GcdFrom(acc, s), x)
  {
    if s != [] {
      var g := GcdFrom(acc, s);
      var step := Gcd(acc, s[0]);
      GcdFromDividesAll(step, s[1..]);
      GcdDividesBoth(acc, s[0]);
      DividesTransitive(g, step, acc);
      DividesTransitive(g, step, s[0]);
      assert s == [s[0]] + s[1..];
    } else {
      DividesSelf(acc);
    }
  }

  lemma {:induction false} GcdFromGreatest(d: int, acc: Int32, s: seq<Int32>)
    decreases |s|
    requires Divides(d, acc)
    requires forall x :: x in s ==> Divides(d, x)
    ensures Divides(d, GcdFrom(acc, s))
  {
    if s != [] {
      GcdGreatest(d, acc, s[0]);
      assert forall x :: x in s[1..] ==> x in s;
      GcdFromGreatest(d, Gcd(acc, s[0]), s[1..]);
    }
  }

  /** Every common divisor of the drained values divides the gcd fold. */
  lemma GcdFoldGreatest(d: int, s: seq<Int32>)
    requires |s| > 0
    requires forall x :: x in s ==> Divides(d, x)
    ensures Divides(d, GcdFold(s))
  {
    assert s[0] in s;
    assert forall x :: x in s[1..] ==> x in s;
    GcdFromGreatest(d, s[0], s[1..]);
  }

  lemma {:induction false} GcdFromNonNegative(acc: Int32, s: seq<Int32>)
    decreases |s|
    requires acc >= 0
    requires forall x :: x in s ==> x >= 0
    ensures GcdFrom(acc, s) >= 0
  {
    if s != [] {
      assert s[0] in s;
      assert forall x :: x in s[1..] ==> x in s;
      GcdFromNonNegative(Gcd(acc, s[0]), s[1..]);
    }
  }

  /** On non-negative values the gcd fold does not depend on the order in which
      they were pushed: any two stacks holding the same values give the same result. */
  lemma GcdFoldOrderIndependent(s: seq<Int32>, t: seq<Int32>)
    requires |s| > 0 && multiset(s) == multiset(t)
    requires forall x :: x in s ==> x >= 0
    ensures |t| > 0
    ensures GcdFold(s) == GcdFold(t)
  {
    assert s[0] in multiset(t);
    assert forall x :: x in t <==> x in s by {
      forall x
        ensures x in t <==> x in s
      {
        assert x in t <==> x in multiset(t);
        assert x in s <==> x in multiset(s);
      }
    }
    assert s[0] in t;
    var gs, gt := GcdFold(s), GcdFold(t);
    GcdFoldGreatest(gs, t);
    GcdFoldGreatest(gt, s);
    assert s[0] in s && t[0] in t;
    assert forall x :: x in s[1..] ==> x in s;
    assert forall x :: x in t[1..] ==> x in t;
    GcdFromNonNegative(s[0], s[1..]);
    GcdFromNonNegative(t[0], t[1..]);
    DividesAntisymmetric(gs, gt);
  }

  /** On operands with no positive value the result is not positive: every
      remainder keeps the dividend's sign. */
  lemma {:induction false} GcdNonPositive(a: Int32, b: Int32)
    requires a <= 0 && b <= 0
    ensures Gcd(a, b) <= 0
    decreases Abs(b)
  {
    if b != 0 {
      GcdNonPositive(b, Rem(a, b));
    }
  }

  lemma {:induction false} GcdFromNonPositive(acc: Int32, s: seq<Int32>)
    decreases |s|
    requires acc <= 0
    requires forall x :: x in s ==> x <= 0
    ensures GcdFrom(acc, s) <= 0
  {
    if s != [] {
      assert s[0] in s;
      assert forall x :: x in s[1..] ==> x in s;
      GcdNonPositive(acc, s[0]);
      GcdFromNonPositive(Gcd(acc, s[0]), s[1..]);
    }
  }

  /** On values none of which is positive the gcd fold is not positive. */
  lemma GcdFoldNonPositive(s: seq<Int32>)
    requires |s| > 0
    requires forall x :: x in s ==> x <= 0
    ensures GcdFold(s) <= 0
  {
    assert s[0] in s;
    assert forall x :: x in s[1..] ==> x in s;
    GcdFromNonPositive(s[0], s[1..]);
  }

  /** On values none of which is positive the gcd fold does not depend on the
      order either, since the fold is then never positive. Only operands of
      opposite sign make the order matter (`GcdOrderMattersForNegatives`). */
  lemma GcdFoldOrderIndependentNonPositive(s: seq<Int32>, t: seq<Int32>)
    requires |s| > 0 && multiset(s) == multiset(t)
    requires forall x :: x in s ==> x <= 0
    ensures |t| > 0
    ensures GcdFold(s) == GcdFold(t)
  {
    assert s[0] in multiset(t);
    assert forall x :: x in t <==> x in s by {
      forall x
        ensures x in t <==> x in s
      {
        assert x in t <==> x in multiset(t);
        assert x in s <==> x in multiset(s);
      }
    }
    assert s[0] in t;
    var gs, gt := GcdFold(s), GcdFold(t);
    GcdFoldGreatest(gs, t);
    GcdFoldGreatest(gt, s);
    GcdFoldNonPositive(s);
    GcdFoldNonPositive(t);
    DividesNegate(gs, gt);
    DividesNegate(gt, gs);
    DividesAntisymmetric(-(gs as int), -(gt as int));
  }

  // ---------------------------------------------------------------------------
  // the lcm fold: seeded with 1, (a * b) / gcd(a, b) in 32-bit arithmetic
  // ---------------------------------------------------------------------------

  /** One step of the lcm fold: the wrapped product of the accumulator and the
      next value, divided (toward zero) by their `Gcd`. The division throws
      when the gcd is zero, which happens exactly when both operands are zero. */
  function LcmStep(a: Int32, b: Int32): (r: Result<Int32>)
    ensures r.Err? <==> a == 0 && b == 0
    ensures r.Err? ==> r.error == DivisionByZero
  {
    var g := Gcd(a, b);
    if g == 0 then Err(DivisionByZero) else Ok(Wrap(Quot(Wrap(a * b), g)))
  }

  /** The lcm fold continued from accumulator `acc` over `s`, one `LcmStep` per
      value. A step throws only on two zeros, so a failing fold has a zero among
      its operands. */
  function LcmFrom(acc: Int32, s: seq<Int32>): (r: Result<Int32>)
    ensures r.Err? ==> r.error == DivisionByZero
    ensures r.Err? ==> 0 in s
    decreases |s|
  {
    if s == [] then Ok(acc)
    else
      assert s == [s[0]] + s[1..];
      match LcmStep(acc, s[0])
      case Err(e) => Err(e)
      case Ok(next) => LcmFrom(next, s[1..])
  }

  /** The lcm fold of `pushOperation`: seeded with 1, then one `LcmStep` per
      drained value, top of stack first. It can only fail by dividing by zero,
      and only when a zero was drained: either two zeros, or one zero met by an
      accumulator that wrapped around to 0 (`LcmFoldOneZeroAfterWrap`). */
  function LcmFold(values: seq<Int32>): (r: Result<Int32>)
    ensures r.Err? ==> r.error == DivisionByZero
    ensures r.Err? ==> 0 in values
  {
    LcmFrom(1, values)
  }

  /** The exact product of the values, used to bound the intermediate results. */
  function Product(s: seq<Int32>): int
  {
    if s == [] then 1 else s[0] * Product(s[1..])
  }

  lemma {:induction false} ProductPositive(s: seq<Int32>)
    requires forall x :: x in s ==> x > 0
    ensures Product(s) >= 1
    decreases |s|
  {
    if s != [] {
      assert s[0] in s;
      assert forall x :: x in s[1..] ==> x in s;
      ProductPositive(s[1..]);
      MulMonotone(1, s[0], Product(s[1..]));
    }
  }

  lemma DivOfMultiple(k: int, g: int)
    requires g > 0
    ensures (k * g) / g == k
  {
    var p := k * g;
    var q, r := p / g, p % g;
    assert p == q * g + r && 0 <= r < g;
    assert r == (k - q) * g;
    if k - q != 0 {
      MultipleMagnitude(k - q, g);
    }
  }

  /** A step on positive operands whose product fits in an `int` yields a
      positive common multiple that is at most the product. */
  lemma LcmStepPositive(a: Int32, b: Int32)
    requires a > 0 && b > 0 && a * b <= MaxInt
    ensures LcmStep(a, b).Ok?
    ensures 0 < LcmStep(a, b).value <= a * b
    ensures Divides(a, LcmStep(a, b).value) && Divides(b, LcmStep(a, b).value)
    ensures LcmStep(a, b).value * Gcd(a, b) == a * b
  {
    var g := Gcd(a, b);
    GcdDividesBoth(a, b);
    var ka, kb := Cofactor(g, a), Cofactor(g, b);
    var l := QuotientByCommonDivisor(a, b, g, ka, kb);
    assert LcmStep(a, b) == Ok(l) by {
      MulMonotone(1, a, b);
      assert Wrap(a * b) == a * b;
      QuotRemNonNegative(a * b, g);
      assert Wrap(l) == l;
    }
    MultipleIsDivisible(b, l, ka);
    MultipleIsDivisible(a, l, kb);
  }

  /** Dividing the product of `a` and `b` by a positive common divisor `g`
      leaves a multiple of each of them, no larger than the product. */
  lemma QuotientByCommonDivisor(a: int, b: int, g: int, ka: int, kb: int) returns (l: int)
    requires a > 0 && b > 0 && g > 0
    requires a == ka * g && b == kb * g
    ensures (a * b) / g == l && l * g == a * b
    ensures l == ka * b && l == kb * a
    ensures 0 < l <= a * b
  {
    l := ka * b;
    assert ka >= 1 by {
      if ka <= 0 {
        MulMonotone(ka, 0, g);
      }
    }
    assert a * b == l * g by {
      MulAssociative(ka, g, b);
      MulAssociative(ka, b, g);
    }
    DivOfMultiple(l, g);
    assert l == kb * a by {
      MulAssociative(ka, kb, g);
      MulAssociative(kb, ka, g);
    }
    assert ka <= a by {
      MulMonotone(1, g, ka);
    }
    MulMonotone(ka, a, b);
    MulMonotone(1, ka, b);
  }

  /** A step on positive operands whose product fits divides every common
      multiple of them: with Bezout's `g == x*a + y*b`, a common multiple `m`
      satisfies `m * g == a * b * k` for an integer `k`, so `m == l * k`. */
  lemma LcmStepLeast(a: Int32, b: Int32, m: int)
    requires a > 0 && b > 0 && a * b <= MaxInt
    requires Divides(a, m) && Divides(b, m)
    ensures LcmStep(a, b).Ok? && Divides(LcmStep(a, b).value, m)
  {
    LcmStepPositive(a, b);
    var g, l := Gcd(a, b), LcmStep(a, b).value;
    var x, y := GcdBezout(a, b);
    var sa, sb := Cofactor(a, m), Cofactor(b, m);
    var k := sb * x + sa * y;
    BezoutMultiple(a, b, m, x, y, sa, sb);
    CancelToMultiple(m, l, g, a * b, k);
    MultipleIsDivisible(l, m, k);
  }

  /** If `g == x*a + y*b` and `m` is a multiple of both `a` and `b`, then
      `m * g` is a multiple of `a * b`. */
  lemma BezoutMultiple(a: int, b: int, m: int, x: int, y: int, sa: int, sb: int)
    requires m == sa * a && m == sb * b
    ensures m * (x * a + y * b) == (a * b) * (sb * x + sa * y)
  {
    MulAdd(m, x * a, y * b);
    assert m * (x * a) == (a * b) * (sb * x) by {
      assert m * (x * a) == (sb * b) * (x * a);
    }
    assert m * (y * b) == (a * b) * (sa * y) by {
      assert m * (y * b) == (sa * a) * (y * b);
    }
    MulAdd(a * b, sb * x, sa * y);
  }

  /** With `l * g == p` and `g != 0`, a number `m` with `m * g == p * k` is `l * k`. */
  lemma CancelToMultiple(m: int, l: int, g: int, p: int, k: int)
    requires g != 0 && l * g == p && m * g == p * k
    ensures m == l * k
  {
    assert p * k == (l * k) * g by {
      MulAssociative(l, g, k);
      MulAssociative(l, k, g);
    }
    CancelFactor(m, l * k, g);
  }

  /** The first step of a fold over positive values whose product (with the
      accumulator) fits in an `int`: it succeeds, and the rest still fits. */
  lemma LcmFromFirstStep(acc: Int32, s: seq<Int32>) returns (next: Int32)
    requires s != [] && acc > 0
    requires forall x :: x in s ==> x > 0
    requires acc * Product(s) <= MaxInt
    ensures s[0] > 0 && acc * s[0] <= MaxInt
    ensures LcmStep(acc, s[0]) == Ok(next) && next > 0
    ensures forall x :: x in s[1..] ==> x > 0
    ensures next * Product(s[1..]) <= MaxInt
    ensures LcmFrom(acc, s) == LcmFrom(next, s[1..])
  {
    var b, rest := s[0], s[1..];
    assert b in s;
    assert forall x :: x in rest ==> x in s;
    ProductPositive(rest);
    var pr := Product(rest);
    assert Product(s) == b * pr;
    assert acc * b <= acc * Product(s) by {
      MulMonotone(1, pr, b);
      MulMonotone(b, b * pr, acc);
    }
    LcmStepPositive(acc, b);
    next := LcmStep(acc, b).value;
    assert next * pr <= acc * Product(s) by {
      MulMonotone(next, acc * b, pr);
      MulAssociative(acc, b, pr);
    }
  }

  lemma {:induction false} LcmFromMultiple(acc: Int32, s: seq<Int32>)
    requires acc > 0
    requires forall x :: x in s ==> x > 0
    requires acc * Product(s) <= MaxInt
    ensures LcmFrom(acc, s).Ok? && LcmFrom(acc, s).value > 0
    ensures Divides(acc, LcmFrom(acc, s).value)
    ensures forall x :: x in s ==> Divides(x, LcmFrom(acc, s).value)
    decreases |s|
  {
    if s == [] {
      DividesSelf(acc);
    } else {
      var next := LcmFromFirstStep(acc, s);
      LcmStepPositive(acc, s[0]);
      LcmFromMultiple(next, s[1..]);
      var l := LcmFrom(acc, s).value;
      DividesTransitive(acc, next, l);
      DividesTransitive(s[0], next, l);
      assert s == [s[0]] + s[1..];
    }
  }

  lemma {:induction false} LcmFromLeast(acc: Int32, s: seq<Int32>, m: int)
    requires acc > 0
    requires forall x :: x in s ==> x > 0
    requires acc * Product(s) <= MaxInt
    requires Divides(acc, m)
    requires forall x :: x in s ==> Divides(x, m)
    ensures LcmFrom(acc, s).Ok? && Divides(LcmFrom(acc, s).value, m)
    decreases |s|
  {
    if s != [] {
      var next := LcmFromFirstStep(acc, s);
      assert s[0] in s;
      LcmStepLeast(acc, s[0], m);
      assert forall x :: x in s[1..] ==> x in s;
      LcmFromLeast(next, s[1..], m);
    }
  }

  /** For positive values whose product fits in an `int`, the lcm fold succeeds
      with a positive common multiple of every drained value. */
  lemma LcmFoldMultiple(s: seq<Int32>)
    requires forall x :: x in s ==> x > 0
    requires Product(s) <= MaxInt
    ensures LcmFold(s).Ok? && LcmFold(s).value > 0
    ensures forall x :: x in s ==> Divides(x, LcmFold(s).value)
  {
    LcmFromMultiple(1, s);
  }

  /** Under the same conditions the lcm fold divides every common multiple of the
      drained values: it is their least common multiple. */
  lemma LcmFoldLeast(s: seq<Int32>, m: int)
    requires forall x :: x in s ==> x > 0
    requires Product(s) <= MaxInt
    requires forall x :: x in s ==> Divides(x, m)
    ensures LcmFold(s).Ok? && Divides(LcmFold(s).value, m)
  {
    MultipleIsDivisible(1, m, m);
    LcmFromLeast(1, s, m);
  }

  lemma {:induction false} ProductAppend(a: seq<Int32>, b: seq<Int32>)
    ensures Product(a + b) == Product(a) * Product(b)
    decreases |a|
  {
    if a == [] {
      assert a + b == b;
    } else {
      assert (a + b)[0] == a[0] && (a + b)[1..] == a[1..] + b;
      ProductAppend(a[1..], b);
      MulAssociative(a[0], Product(a[1..]), Product(b));
    }
  }

  /** Taking the value at index `i` out of a sequence divides it out of the product. */
  lemma ProductRemove(t: seq<Int32>, i: nat)
    requires i < |t|
    ensures Product(t) == t[i] * Product(t[..i] + t[i + 1..])
  {
    var before, after := t[..i], t[i + 1..];
    assert t == before + ([t[i]] + after);
    ProductAppend(before, [t[i]] + after);
    ProductAppend(before, after);
    assert Product([t[i]] + after) == t[i] * Product(after);
    MulAssociative(Product(before), t[i], Product(after));
    MulAssociative(t[i], Product(before), Product(after));
  }

  /** The product does not depend on the order of the values. */
  lemma {:induction false} ProductPermutation(s: seq<Int32>, t: seq<Int32>)
    requires multiset(s) == multiset(t)
    ensures Product(s) == Product(t)
    decreases |s|
  {
    if s == [] {
      assert |t| == |multiset(t)| == 0;
    } else {
      assert s[0] in multiset(t);
      var i :| 0 <= i < |t| && t[i] == s[0];
      var rest := t[..i] + t[i + 1..];
      assert multiset(s[1..]) == multiset(rest) by {
        assert t == t[..i] + [t[i]] + t[i + 1..];
        assert multiset(t) == multiset(t[..i]) + multiset{t[i]} + multiset(t[i + 1..]);
        assert s == [s[0]] + s[1..];
        assert multiset(s) == multiset{s[0]} + multiset(s[1..]);
        assert multiset(rest) == multiset(t[..i]) + multiset(t[i + 1..]);
        assert multiset(s[1..]) == multiset(s) - multiset{s[0]};
        assert multiset(rest) == multiset(t) - multiset{t[i]};
      }
      ProductPermutation(s[1..], rest);
      ProductRemove(t, i);
    }
  }

  /** On positive values whose product fits in an `int`, the lcm fold does not
      depend on the order in which the values were pushed. */
  lemma LcmFoldOrderIndependent(s: seq<Int32>, t: seq<Int32>)
    requires forall x :: x in s ==> x > 0
    requires Product(s) <= MaxInt
    requires multiset(s) == multiset(t)
    ensures LcmFold(s).Ok? && LcmFold(s) == LcmFold(t)
  {
    assert forall x :: x in t <==> x in s by {
      forall x
        ensures x in t <==> x in s
      {
        assert x in t <==> x in multiset(t);
        assert x in s <==> x in multiset(s);
      }
    }
    ProductPermutation(s, t);
    LcmFoldMultiple(s);
    LcmFoldMultiple(t);
    var ls, lt := LcmFold(s).value, LcmFold(t).value;
    LcmFoldLeast(s, lt);
    LcmFoldLeast(t, ls);
    DividesAntisymmetric(ls, lt);
  }

  /** Once the accumulator is zero it stays zero until the next zero operand,
      whose step divides by gcd(0, 0). */
  lemma {:induction false} LcmFromZeroFails(s: seq<Int32>, j: int)
    requires 0 <= j < |s| && s[j] == 0
    ensures LcmFrom(0, s).Err? && LcmFrom(0, s).error == DivisionByZero
  {
    if s[0] != 0 {
      var b := s[0];
      GcdWithZero(b);
      assert Gcd(0, b) == b;
      assert Wrap(0 * b) == 0;
      assert LcmStep(0, b) == Ok(0);
      LcmFromZeroFails(s[1..], j - 1);
    }
  }

  /** Two zeros among the drained values make the lcm fold throw, whatever else
      the stack holds. */
  lemma {:induction false} LcmFromTwoZerosFails(acc: Int32, s: seq<Int32>, i: int, j: int)
    decreases |s|
    requires 0 <= i < j < |s| && s[i] == 0 && s[j] == 0
    ensures LcmFrom(acc, s).Err? && LcmFrom(acc, s).error == DivisionByZero
  {
    var step := LcmStep(acc, s[0]);
    if i == 0 {
      if acc != 0 {
        GcdWithZero(acc);
        assert Wrap(acc * 0) == 0;
        DividesZero(acc);
        assert Quot(0, acc) == 0;
        assert step == Ok(0);
        LcmFromZeroFails(s[1..], j - 1);
      }
    } else if step.Ok? {
      LcmFromTwoZerosFails(step.value, s[1..], i - 1, j - 1);
    }
  }

  lemma LcmFoldTwoZerosFails(s: seq<Int32>, i: int, j: int)
    requires 0 <= i < j < |s| && s[i] == 0 && s[j] == 0
    ensures LcmFold(s) == Err(DivisionByZero)
  {
    LcmFromTwoZerosFails(1, s, i, j);
  }

  /** One zero is enough once the accumulator has wrapped around to 0:
      65536 * 65536 is 2^32, which is 0 as an `int`, and then gcd(0, 0) = 0. */
  lemma LcmFoldOneZeroAfterWrap()
    ensures LcmFold([65536, 65536, 0]) == Err(DivisionByZero)
  {
    assert Gcd(1, 65536) == 1;
    assert LcmStep(1, 65536) == Ok(65536);
    assert Gcd(65536, 65536) == 65536;
    assert Wrap(65536 * 65536) == 0;
    assert LcmStep(65536, 65536) == Ok(0);
    assert [65536, 65536, 0][1..] == [65536, 0];
    assert [65536, 0][1..] == [0];
  }

  /** On overflow the result is no longer a common multiple: the exact lcm of
      65536 and 65537 is 2^32 + 65536, which wraps to 65536. */
  lemma LcmFoldOverflow()
    ensures LcmFold([65536, 65537]) == Ok(65536)
    ensures !Divides(65537, 65536)
  {
    assert Gcd(1, 65536) == 1;
    assert LcmStep(1, 65536) == Ok(65536);
    assert Gcd(65536, 65537) == 1 by {
      assert Rem(65536, 65537) == 65536;
      assert Rem(65537, 65536) == 1;
      assert Rem(65536, 1) == 0;
    }
    assert Wrap(65536 * 65537) == 65536;
    assert LcmStep(65536, 65537) == Ok(65536);
    assert [65536, 65537][1..] == [65537];
    if Divides(65537, 65536) {
      DivisorIsSmaller(65537, 65536);
    }
  }

  /** With a negative value the result is a negative common multiple. */
  lemma LcmFoldNegative()
    ensures LcmFold([-2, 3]) == Ok(-6)
    ensures Divides(-2, -6) && Divides(3, -6)
  {
    assert Gcd(1, -2) == 1 by {
      assert Rem(1, -2) == 1;
      assert Rem(-2, 1) == 0;
    }
    assert LcmStep(1, -2) == Ok(-2);
    assert Gcd(-2, 3) == 1 by {
      assert Rem(-2, 3) == -2;
      assert Rem(3, -2) == 1;
      assert Rem(-2, 1) == 0;
    }
    assert LcmStep(-2, 3) == Ok(-6);
    assert [-2, 3][1..] == [3];
    MultipleIsDivisible(-2, -6, 3);
    MultipleIsDivisible(3, -6, -2);
  }

  /** Operands of opposite sign make the lcm fold depend on the order of the
      values even without overflow, since the sign of `Gcd` follows the order. */
  lemma LcmOrderMattersForNegatives()
    ensures LcmFold([4, -4]) == Ok(4)
    ensures LcmFold([-4, 4]) == Ok(-4)
  {
    assert Gcd(1, 4) == 1;
    assert LcmStep(1, 4) == Ok(4);
    assert Gcd(4, -4) == -4;
    assert LcmStep(4, -4) == Ok(4);
    assert [4, -4][1..] == [-4];
    assert Gcd(1, -4) == 1 by {
      assert Rem(1, -4) == 1;
      assert Rem(-4, 1) == 0;
    }
    assert LcmStep(1, -4) == Ok(-4);
    assert Gcd(-4, 4) == 4;
    assert LcmStep(-4, 4) == Ok(-4);
    assert [-4, 4][1..] == [4];
  }
}

=== FILE: sessions.dfy ===
/**
 Sequences of calls against one registry.

 Every public operation of the service is `synchronized` on the one service
 object, so however many clients call concurrently, the calls take effect one
 at a time in some order. A run of the service is therefore a sequence of
 calls applied in turn. This module proves what clients observe of such runs:
 a client's values come back last-in first-out, and a client sees the same
 responses and ends with the same stack whatever other clients do in between.
 */
module Sessions {

  import opened JavaInt
  import opened Outcomes
  import Calculator

  type Registry = Calculator.Registry

  /** One remote call, naming the client it acts for. */
  datatype Call =
    | PushValue(client: string, value: Int32)
    | PushOperation(client: string, op: string)
    | Pop(client: string)
    | IsEmpty(client: string)
    | DelayPop(client: string, millis: Int32, interrupted: bool)

  /** What the caller receives: nothing (void), a popped value, a flag, or an error. */
  datatype Response = Done | Value(value: Int32) | Flag(empty: bool) | Failed(error: Error)

  function ValueResponse(r: Result<Int32>): Response
  {
    match r
    case Ok(v) => Value(v)
    case Err(e) => Failed(e)
  }

  /** `client` has the same entry, or the same absence of one, in both registries. */
  predicate SameEntry(r1: Registry, r2: Registry, client: string)
  {
    (client in r1 <==> client in r2) && (client in r1 ==> r1[client] == r2[client])
  }

  /** Dispatch of one call to the operation it names. A call changes no entry
      but its own client's and never removes a client. */
  function Step(reg: Registry, call: Call): (r: (Response, Registry))
    ensures reg.Keys <= r.1.Keys
    ensures forall d :: d != call.client ==> SameEntry(reg, r.1, d)
  {
    match call
    case PushValue(c, v) => (Done, Calculator.PushValue(reg, c, v))
    case PushOperation(c, op) =>
      var reply := Calculator.PushOperation(reg, c, op);
      (if reply.result.Ok? then Done else Failed(reply.result.error), reply.registry)
    case Pop(c) =>
      var reply := Calculator.Pop(reg, c);
      (ValueResponse(reply.result), reply.registry)
    case IsEmpty(c) => (Flag(Calculator.IsEmpty(reg, c)), reg)
    case DelayPop(c, ms, interrupted) =>
      var reply := Calculator.DelayPop(reg, c, ms, interrupted);
      (ValueResponse(reply.result), reply.registry)
  }

  /** A call's response and its effect on its own client's entry depend on that
      entry alone. */
  lemma StepLocal(r1: Registry, r2: Registry, call: Call)
    requires SameEntry(r1, r2, call.client)
    ensures Step(r1, call).0 == Step(r2, call).0
    ensures SameEntry(Step(r1, call).1, Step(r2, call).1, call.client)
  {
  }

  /** The calls applied in order: one response per call, and the final registry. */
  function Run(reg: Registry, calls: seq<Call>): (r: (seq<Response>, Registry))
    ensures |r.0| == |calls|
    ensures reg.Keys <= r.1.Keys
    decreases |calls|
  {
    if calls == [] then ([], reg)
    else
      var first := Step(reg, calls[0]);
      var rest := Run(first.1, calls[1..]);
      ([first.0] + rest.0, rest.1)
  }

  /** The calls made for `client`, in order. */
  function CallsOf(calls: seq<Call>, client: string): seq<Call>
    decreases |calls|
  {
    if calls == [] then []
    else if calls[0].client == client then [calls[0]] + CallsOf(calls[1..], client)
    else CallsOf(calls[1..], client)
  }

  /** The responses to the calls made for `client`, in order. */
  function ResponsesOf(calls: seq<Call>, responses: seq<Response>, client: string): seq<Response>
    requires |calls| == |responses|
    decreases |calls|
  {
    if calls == [] then []
    else if calls[0].client == client then [responses[0]] + ResponsesOf(calls[1..], responses[1..], client)
    else ResponsesOf(calls[1..], responses[1..], client)
  }

  lemma {:induction false} RunIsolatedFrom(r1: Registry, r2: Registry, calls: seq<Call>, client: string)
    requires SameEntry(r1, r2, client)
    ensures ResponsesOf(calls, Run(r1, calls).0, client) == Run(r2, CallsOf(calls, client)).0
    ensures SameEntry(Run(r1, calls).1, Run(r2, CallsOf(calls, client)).1, client)
    decreases |calls|
  {
    if calls != [] {
      var call := calls[0];
      var s1 := Step(r1, call);
      if call.client == client {
        StepLocal(r1, r2, call);
        var s2 := Step(r2, call);
        RunIsolatedFrom(s1.1, s2.1, calls[1..], client);
        assert CallsOf(calls, client) == [call] + CallsOf(calls[1..], client);
        assert ([call] + CallsOf(calls[1..], client))[1..] == CallsOf(calls[1..], client);
      } else {
        RunIsolatedFrom(s1.1, r2, calls[1..], client);
      }
    }
  }

  /** Client isolation: in any interleaving of calls from many clients, one
      client receives exactly the responses, and ends with exactly the stack, it
      would have had if only its own calls had been made. */
  lemma ClientsIsolated(reg: Registry, calls: seq<Call>, client: string)
    ensures ResponsesOf(calls, Run(reg, calls).0, client) == Run(reg, CallsOf(calls, client)).0
    ensures Calculator.StackOf(Run(reg, calls).1, client)
         == Calculator.StackOf(Run(reg, CallsOf(calls, client)).1, client)
  {
    RunIsolatedFrom(reg, reg, calls, client);
  }

  // ---------------------------------------------------------------------------
  // last-in first-out
  // ---------------------------------------------------------------------------

  function Pushes(client: string, values: seq<Int32>): seq<Call>
  {
    if values == [] then [] else [PushValue(client, values[0])] + Pushes(client, values[1..])
  }

  function Pops(client: string, n: nat): seq<Call>
  {
    if n == 0 then [] else [Pop(client)] + Pops(client, n - 1)
  }

  function Dones(n: nat): seq<Response>
  {
    seq(n, _ => Done)
  }

  function Values(s: seq<Int32>): seq<Response>
  {
    seq(|s|, i requires 0 <= i < |s| => Value(s[i]))
  }

  function Reverse(s: seq<Int32>): (r: seq<Int32>)
    ensures |r| == |s|
  {
    if s == [] then [] else Reverse(s[1..]) + [s[0]]
  }

  lemma {:induction false} RunAppend(reg: Registry, a: seq<Call>, b: seq<Call>)
    ensures Run(reg, a + b).0 == Run(reg, a).0 + Run(Run(reg, a).1, b).0
    ensures Run(reg, a + b).1 == Run(Run(reg, a).1, b).1
    decreases |a|
  {
    if a == [] {
      assert a + b == b;
    } else {
      var first := Step(reg, a[0]);
      assert (a + b)[0] == a[0] && (a + b)[1..] == a[1..] + b;
      RunAppend(first.1, a[1..], b);
      var prefix := Run(first.1, a[1..]);
      AppendAssociative([first.0], prefix.0, Run(prefix.1, b).0);
    }
  }

  lemma AppendAssociative<T>(a: seq<T>, b: seq<T>, c: seq<T>)
    ensures a + (b + c) == (a + b) + c
  {
  }

  /** Pushing values one after another stacks them in reverse, the last pushed on top. */
  lemma {:induction false} RunPushes(reg: Registry, client: string, values: seq<Int32>)
    requires client in reg || values != []
    ensures Run(reg, Pushes(client, values)).0 == Dones(|values|)
    ensures Run(reg, Pushes(client, values)).1
         == reg[client := Reverse(values) + Calculator.StackOf(reg, client)]
    decreases |values|
  {
    if values == [] {
      NoPushes(reg, client);
    } else {
      var next := FirstPush(reg, client, values);
      RunPushes(next, client, values[1..]);
      var stack := Reverse(values[1..]) + Calculator.StackOf(next, client);
      var run := Run(reg, Pushes(client, values));
      assert run.1 == next[client := stack]
          == reg[client := Reverse(values) + Calculator.StackOf(reg, client)];
      assert run.0 == [Done] + Dones(|values| - 1) == Dones(|values|);
    }
  }

  lemma NoPushes(reg: Registry, client: string)
    requires client in reg
    ensures Run(reg, Pushes(client, []))
         == ([], reg[client := Reverse([]) + Calculator.StackOf(reg, client)])
  {
    assert Pushes(client, []) == [];
    assert Reverse([]) + Calculator.StackOf(reg, client) == reg[client];
    assert reg[client := reg[client]] == reg;
  }

  /** Unfolds the first push of a non-empty run of pushes. */
  lemma FirstPush(reg: Registry, client: string, values: seq<Int32>) returns (next: Registry)
    requires values != []
    ensures next == Calculator.PushValue(reg, client, values[0])
    ensures client in next
    ensures Run(reg, Pushes(client, values))
         == ([Done] + Run(next, Pushes(client, values[1..])).0,
             Run(next, Pushes(client, values[1..])).1)
    ensures var stack := Reverse(values[1..]) + Calculator.StackOf(next, client);
      && stack == Reverse(values) + Calculator.StackOf(reg, client)
      && next[client := stack] == reg[client := stack]
  {
    next := Calculator.PushValue(reg, client, values[0]);
    var calls := Pushes(client, values);
    assert calls[0] == PushValue(client, values[0]);
    assert calls[1..] == Pushes(client, values[1..]);
    assert Step(reg, calls[0]) == (Done, next);
    StackAfterPush(reg, client, values);
  }

  lemma StackAfterPush(reg: Registry, client: string, values: seq<Int32>)
    requires values != []
    ensures var next := Calculator.PushValue(reg, client, values[0]);
      var stack := Reverse(values[1..]) + Calculator.StackOf(next, client);
      && stack == Reverse(values) + Calculator.StackOf(reg, client)
      && next[client := stack] == reg[client := stack]
  {
    var next := Calculator.PushValue(reg, client, values[0]);
    var old_stack := Calculator.StackOf(reg, client);
    assert Calculator.StackOf(next, client) == [values[0]] + old_stack;
    ReverseOnto(values, old_stack);
    OverwriteEntry(reg, client, [values[0]] + old_stack,
                   Reverse(values[1..]) + Calculator.StackOf(next, client));
  }

  /** Reversing `values` onto a stack puts the first value directly on it. */
  lemma ReverseOnto(values: seq<Int32>, stack: seq<Int32>)
    requires values != []
    ensures Reverse(values[1..]) + ([values[0]] + stack) == Reverse(values) + stack
  {
    assert Reverse(values) == Reverse(values[1..]) + [values[0]];
    AppendAssociative(Reverse(values[1..]), [values[0]], stack);
  }

  lemma OverwriteEntry(reg: Registry, client: string, first: seq<Int32>, second: seq<Int32>)
    ensures reg[client := first][client := second] == reg[client := second]
  {
    assert reg[client := first][client := second].Keys == reg[client := second].Keys;
  }

  /** Popping `n` times returns the top `n` values, top first. */
  lemma {:induction false} RunPops(reg: Registry, client: string, n: nat)
    requires client in reg && n <= |reg[client]|
    ensures Run(reg, Pops(client, n)).0 == Values(reg[client][..n])
    ensures Run(reg, Pops(client, n)).1 == reg[client := reg[client][n..]]
    decreases n
  {
    if n == 0 {
      assert reg[client := reg[client][0..]] == reg;
    } else {
      var next := FirstPop(reg, client, n);
      RunPops(next, client, n - 1);
      assert next[client][n - 1..] == reg[client][n..];
      OverwriteEntry(reg, client, reg[client][1..], reg[client][n..]);
    }
  }

  /** Unfolds the first pop of a run of `n` pops. */
  lemma FirstPop(reg: Registry, client: string, n: nat) returns (next: Registry)
    requires client in reg && 0 < n <= |reg[client]|
    ensures next == reg[client := reg[client][1..]]
    ensures Run(reg, Pops(client, n))
         == ([Value(reg[client][0])] + Run(next, Pops(client, n - 1)).0,
             Run(next, Pops(client, n - 1)).1)
    ensures Values(reg[client][..n]) == [Value(reg[client][0])] + Values(next[client][..n - 1])
  {
    next := Calculator.Pop(reg, client).registry;
    var calls := Pops(client, n);
    assert calls[0] == Pop(client);
    assert calls[1..] == Pops(client, n - 1);
    assert Step(reg, calls[0]) == (Value(reg[client][0]), next);
    ValuesFirst(reg[client], n);
  }

  /** The responses for the top `n` values start with the top one. */
  lemma ValuesFirst(s: seq<Int32>, n: nat)
    requires 0 < n <= |s|
    ensures Values(s[..n]) == [Value(s[0])] + Values(s[1..][..n - 1])
  {
    assert s[..n][1..] == s[1..][..n - 1];
  }

  /** Last-in first-out: pushing values then popping as many times returns them
      in reverse order and restores the client's previous stack. */
  lemma PushesThenPopsReverse(reg: Registry, client: string, values: seq<Int32>)
    requires client in reg || values != []
    ensures Run(reg, Pushes(client, values) + Pops(client, |values|)).0
         == Dones(|values|) + Values(Reverse(values))
    ensures Run(reg, Pushes(client, values) + Pops(client, |values|)).1
         == reg[client := Calculator.StackOf(reg, client)]
  {
    var n := |values|;
    var pushes, pops := Pushes(client, values), Pops(client, n);
    RunAppend(reg, pushes, pops);
    var pushed := PushedRegistry(reg, client, values);
    RunPops(pushed, client, n);
  }

  /** The registry after the pushes, with the pushed values on top of the old stack. */
  lemma PushedRegistry(reg: Registry, client: string, values: seq<Int32>) returns (pushed: Registry)
    requires client in reg || values != []
    ensures pushed == Run(reg, Pushes(client, values)).1
    ensures Run(reg, Pushes(client, values)).0 == Dones(|values|)
    ensures client in pushed && |values| <= |pushed[client]|
    ensures pushed[client][..|values|] == Reverse(values)
    ensures pushed[client := pushed[client][|values|..]] == reg[client := Calculator.StackOf(reg, client)]
  {
    RunPushes(reg, client, values);
    pushed := Run(reg, Pushes(client, values)).1;
    var stack := Reverse(values) + Calculator.StackOf(reg, client);
    assert pushed[client] == stack;
    assert stack[..|values|] == Reverse(values);
    assert stack[|values|..] == Calculator.StackOf(reg, client);
  }
}

/** The call sequences of the service's tests and example client, and what the
    model answers to them. */
module Scenarios {

  import opened JavaInt
  import opened Outcomes
  import opened Reductions
  import opened Calculator
  import Sessions

  const Empty: Registry := map[]

  /** Five values pushed by one client come back 5, 4, 3, 2, 1. */
  lemma PopsReturnReverseOrder()
    ensures Sessions.Run(Empty, Sessions.Pushes("client0", [1, 2, 3, 4, 5]) + Sessions.Pops("client0", 5)).0
         == Sessions.Dones(5)
            + [Sessions.Value(5), Sessions.Value(4), Sessions.Value(3), Sessions.Value(2), Sessions.Value(1)]
  {
    Sessions.PushesThenPopsReverse(Empty, "client0", [1, 2, 3, 4, 5]);
    assert Sessions.Reverse([1, 2, 3, 4, 5]) == [5, 4, 3, 2, 1];
  }

  /** The registry after one client pushed 1, 2, 3, 4, 5 in that order. */
  lemma FiveValues() returns (r: Registry)
    ensures r == PushValue(PushValue(PushValue(PushValue(PushValue(Empty, "c", 1), "c", 2), "c", 3),
                                     "c", 4), "c", 5)
    ensures r == map["c" := [5, 4, 3, 2, 1]]
  {
    r := PushValue(Empty, "c", 1);
    assert r.Keys == {"c"} && r["c"] == [1];
    r := PushValue(r, "c", 2);
    assert r.Keys == {"c"} && r["c"] == [2, 1];
    r := PushValue(r, "c", 3);
    assert r.Keys == {"c"} && r["c"] == [3, 2, 1];
    r := PushValue(r, "c", 4);
    assert r.Keys == {"c"} && r["c"] == [4, 3, 2, 1];
    r := PushValue(r, "c", 5);
    assert r.Keys == {"c"} && r["c"] == [5, 4, 3, 2, 1];
  }

  /** min over 1..5 is 1: the stack is left holding just 1, which pop returns. */
  lemma MinOfFive()
    ensures PushOperation(map["c" := [5, 4, 3, 2, 1]], "c", "min") == Reply(Ok(()), map["c" := [1]])
    ensures Pop(map["c" := [1]], "c") == Reply(Ok(1), map["c" := []])
  {
    var reg: Registry := map["c" := [5, 4, 3, 2, 1]];
    LeastOfFive();
    assert Reduce("min", reg["c"]) == Ok(1);
    var drained := reg["c" := []];
    assert PushOperation(reg, "c", "min") == Reply(Ok(()), drained["c" := [1]]);
    assert drained["c" := [1]] == map["c" := [1]];
    var p := Pop(map["c" := [1]], "c");
    assert p.registry.Keys == {"c"} && p.registry["c"] == [];
  }

  lemma LeastOfFive()
    ensures Min([5, 4, 3, 2, 1]) == 1
  {
    assert [5, 4, 3, 2, 1][1..] == [4, 3, 2, 1];
    assert [4, 3, 2, 1][1..] == [3, 2, 1];
    assert [3, 2, 1][1..] == [2, 1];
    assert [2, 1][1..] == [1];
    assert Min([1]) == 1;
    assert Min([2, 1]) == 1;
    assert Min([3, 2, 1]) == 1;
    assert Min([4, 3, 2, 1]) == 1;
  }

  /** 10 pushed on an emptied stack is its max, which pop returns. */
  lemma MaxOfOne()
    ensures PushOperation(PushValue(map["c" := []], "c", 10), "c", "max") == Reply(Ok(()), map["c" := [10]])
    ensures Pop(map["c" := [10]], "c") == Reply(Ok(10), map["c" := []])
  {
    var reg := PushValue(map["c" := []], "c", 10);
    assert reg.Keys == {"c"} && reg["c"] == [10];
    assert Max([10]) == 10;
    var r := PushOperation(reg, "c", "max");
    assert r.registry.Keys == {"c"} && r.registry["c"] == [10];
    var p := Pop(map["c" := [10]], "c");
    assert p.registry.Keys == {"c"} && p.registry["c"] == [];
  }

  /** The operation test of the service: push 1..5, min, pop gives 1; then push
      10, max, pop gives 10, and the client's stack is empty again. */
  lemma MinThenMax()
    ensures var r0 := PushValue(PushValue(PushValue(PushValue(PushValue(Empty, "c", 1), "c", 2), "c", 3),
                                          "c", 4), "c", 5);
      var r1 := PushOperation(r0, "c", "min");
      var r2 := Pop(r1.registry, "c");
      var r3 := PushOperation(PushValue(r2.registry, "c", 10), "c", "max");
      var r4 := Pop(r3.registry, "c");
      && r1.result.Ok? && r2.result == Ok(1)
      && r3.result.Ok? && r4.result == Ok(10)
      && IsEmpty(r4.registry, "c")
  {
    var r0 := FiveValues();
    MinOfFive();
    MaxOfOne();
  }

  /** Pushing 10 then 20 and applying max leaves 20. */
  lemma MaxOfTwo()
    ensures var r := PushOperation(PushValue(PushValue(Empty, "x", 10), "x", 20), "x", "max");
      Pop(r.registry, "x").result == Ok(20)
  {
    assert Max([20, 10]) == 20;
  }

  /** Pushing 5 then 15 and applying gcd leaves 5. */
  lemma GcdOfTwo()
    ensures var r := PushOperation(PushValue(PushValue(Empty, "y", 5), "y", 15), "y", "gcd");
      Pop(r.registry, "y").result == Ok(5)
  {
    assert Rem(15, 5) == 0;
    assert GcdFold([15, 5]) == Gcd(15, 5) == 5;
  }

  /** Pushing 14 then 21 and applying lcm leaves 42. */
  lemma LcmOfTwo()
    ensures var r := PushOperation(PushValue(PushValue(Empty, "z", 14), "z", 21), "z", "lcm");
      Pop(r.registry, "z").result == Ok(42)
  {
    assert Rem(1, 21) == 1 && Rem(21, 1) == 0;
    assert Gcd(1, 21) == 1;
    assert Quot(21, 1) == 21;
    assert LcmStep(1, 21) == Ok(21);
    assert Rem(21, 14) == 7 && Rem(14, 7) == 0;
    assert Gcd(21, 14) == 7;
    assert Quot(294, 7) == 42;
    assert LcmStep(21, 14) == Ok(42);
    assert LcmFold([21, 14]) == Ok(42);
    var r0 := PushValue(PushValue(Empty, "z", 14), "z", 21);
    assert r0["z"] == [21, 14];
    assert Reduce("lcm", [21, 14]) == Ok(42);
    assert PushOperation(r0, "z", "lcm").registry["z"] == [42];
  }

  /** An uninterrupted delayed pop returns the top value; an interrupted one
      fails and pops nothing. */
  lemma DelayedPopOfFive()
    ensures var r0 := PushValue(PushValue(PushValue(PushValue(PushValue(Empty, "c", 1), "c", 2), "c", 3),
                                          "c", 4), "c", 5);
      && DelayPop(r0, "c", 1000, false).result == Ok(5)
      && DelayPop(r0, "c", 1000, true) == Reply(Err(Interrupted), r0)
  {
  }
}
